=== FILE: README.md ===
# pk client: command dispatch, re-authentication and the SSH-key commands

This project models the decision logic of the `pk` command-line client, a Go program
that talks to a hosting API. Two parts are modelled:

- `client.go`:
  - the command registry and `findCommand`;
  - `tryWithReauth`, which re-authenticates and re-runs a command once after an expired
    or rejected access token;
  - the dispatch in `main`: the `-w` listing, the usage text, `help <command>`, unknown
    commands, flag parsing, and the `"<name> error: <message>"` report.
- `cmd_keys.go`: the `run` bodies of `add-key`, `list-keys` and `remove-key`.

Every collaborator is a scripted oracle: the HTTP client, OAuth, ssh key parsing,
terminal prompts, key creation and the clock. Each command records, in a ghost trace,
which collaborators it calls, in what order and with which arguments; a read of the
clock is recorded as a `Now` call.

Files:

- `outcomes.dfy` (module `Outcomes`): the error values the code inspects. A `*url.Error`
  carries its cause, an `*api.APIError` its status code, and any other error only its
  message.
- `text.dfy` (module `Text`): the two Go library functions the key commands rely on.
  - `strings.TrimSpace`, using Go's `unicode.IsSpace`.
  - `time.Time.Format("2006-01-02")`.
- `traces.dfy` (module `Traces`): counting the entries of a trace.
- `client.dfy` (module `Client`):
  - `FindCommand`.
  - The specification functions `Reauth` and `MainEvents`.
  - The class `Process`, whose methods `TryWithReauth` and `RunMain` follow the Go
    control flow step by step over a trace of events. Each is proved to produce exactly
    the events of its specification function.
- `keys.dfy` (module `Keys`):
  - The specification functions `AddKeySpec`, `ListKeysSpec` and `RemoveKeySpec`, and
    lemmas stating what each command promises.
  - The class `KeyCommands`, whose `RunAddKey`, `RunListKeys` and `RunRemoveKey` follow
    the Go bodies. Each is proved to make exactly the calls of its specification function
    and to return its result.

The registry is a parameter (a sequence of `Command` records). Only the three key
commands are defined in the files this model covers. `main` sees the chosen command's
`run` function through two scripted results: its first call and its second call.

## Model

| member | source | states |
|---|---|---|
| Client.FindCommand | client.go:99-106 | the result is the position of a command with the given name, no earlier command has that name, and the result is None exactly when no registered command has that name |
| Client.FindRegistered | client.go:99-106 | in a registry without duplicate names, every command is found at its own position |
| Client.Reauth | client.go:108-131 | an OAuth error inside a url.Error, or an API error with status 401: prints its message, calls authorize(true), runs again once and returns the second result. Any other outcome (success, another status, another url.Error cause, any other error): one run, no authorization, the first result unchanged. authorize(false) never happens, and only this command is run |
| Client.Notice | client.go:111-123 | the type switch: the expired-token message exactly for a url.Error wrapping an OAuthError, the bad-token message exactly for an API error with status 401, and no message (no re-authentication) for everything else |
| Client.ReauthAtMostOnce | client.go:108-131 | one or two runs, exactly one forced authorization per extra run, never a non-forced one |
| Client.MainEvents | client.go:50-96 | -w prints the names and stops before any authorization. Otherwise authorize(false) comes first and only once. No arguments gives the usage text; help with an unknown target, or an unknown command, gives the flag defaults. A bare help also gives the flag defaults, not the usage text: its target Arg(args, 1) is "", which names no command. help with a known target gives its flag defaults, or "No usage for" when it has no flags. A found command has its flags parsed when it has a flag set, goes through tryWithReauth, and a failure is reported with the first argument and the error text |
| Client.MainRunsOnlyNamed | client.go:63-96 | a command is run only when -w is not set and the first argument names a registered command other than help, so no arguments, help and an unknown name run nothing; only the command named on the command line is ever run |
| Client.MainRunsAtMostTwice | client.go:50-96 | over every path of main: at most two runs, at most one forced authorization, and one non-forced authorization exactly when -w is not set |
| Client.DispatchAtMostTwice | client.go:62-96 | after authorize(false): at most two runs, at most one forced authorization, no further non-forced one |
| Client.Process.TryWithReauth | client.go:108-131 | the type switch, the retry and the return make exactly the events of Reauth and return its result; the command is run twice exactly when the first error calls for re-authentication |
| Client.Process.RunMain | client.go:50-96 | one run of main produces exactly the events of MainEvents; the command is run only when the first argument names a registered command other than help, twice exactly when its first error calls for re-authentication, and never with -w |
| Client.Process.PrintNames | client.go:51-56 | the -w loop prints one line holding every registered name followed by a space, in registry order, as the recursive definition Client.NamesLine (client.go:51-55) builds it |
| Client.NamesLinePrefix | client.go:51-55 | the line for the first j commands is a prefix of the line for all of them |
| Client.NamesLineShowsEach | client.go:51-55 | every registered name occurs in the -w line followed by a space, starting where the names before it end |
| Client.NamesLineInOrder | client.go:51-55 | the names occur in registry order: each name and its space end before any later name starts |
| Client.Process.Dispatch | client.go:63-96 | the branches after authorize(false) produce exactly the events of Client.DispatchEvents (client.go:62-96), the definition MainEvents continues with; the command is run only in the found-command branch (Client.Dispatched), twice exactly when its first error calls for re-authentication |
| Text.TrimSpace | cmd_keys.go:58 | the result is the slice of the input that starts after its leading white space, everything after it is white space, it neither starts nor ends with white space, and it is empty exactly when the input is all white space |
| Text.FormatDate | cmd_keys.go:54 | ten characters: four year digits, a dash, two month digits, a dash, two day digits, whose decimal values are the year, month and day |
| Text.Pad | cmd_keys.go:54 | a number below 10^width becomes exactly `width` decimal digits whose value is that number |
| Keys.CollectFingerprints | cmd_keys.go:24-28 | the map holds exactly the fingerprints of the listed keys, each mapped to true |
| Keys.RegisteredFacts | cmd_keys.go:22-28 | after a successful listing the map's keys are exactly the listed fingerprints; after a failed one it is empty; every value is true |
| Keys.KeyCommands.ExistingFingerprints | cmd_keys.go:22-28 | one listing call; the map holds exactly the listed fingerprints, or nothing when the listing failed, and the command carries on either way |
| Keys.KeyName | cmd_keys.go:51-55 | a non-blank answer is the name verbatim; a blank one gives today's date as YYYY-MM-DD; a valid date is required only for a blank answer, the only case that reads the clock |
| Keys.Naming | cmd_keys.go:51-54 | the naming step calls only the name question and the clock, and reads the clock exactly when the answer is blank |
| Keys.Scan | cmd_keys.go:34-38 | the scans use the registered fingerprints. The question is asked exactly when the first scan is empty. A key is created exactly when it is empty and the user agrees. Nothing else is called |
| Keys.ScanCounts | cmd_keys.go:34-38 | at most one key creation and at most two scans |
| Keys.KeyCommands.ScanLocalKeys | cmd_keys.go:34-38 | the keys offered are Keys.Candidates (cmd_keys.go:34-38): the first scan, or the scan after creation when the first was empty and the user agreed; a key pair is created exactly in that case |
| Keys.Lookup | cmd_keys.go:30-45 | every call is a read of the key path, a scan, the create-a-key question, a key creation or the key picker, and nothing else. With a key path, only the read of that path. Without one, no read, the scans use the registered fingerprints, and a picker over exactly the candidates exactly when there are candidates |
| Keys.Upload | cmd_keys.go:51-64 | after the key is chosen: only the name question, the clock, uploads and announcements; every upload is of that key, trimmed, under the given name; "Added" is announced exactly when the upload succeeds |
| Keys.UploadOnce | cmd_keys.go:57-58 | exactly one upload |
| Keys.After | cmd_keys.go:47-64 | after the key lookup, add-key only asks for the name, reads the clock, uploads and announces |
| Keys.SelectFacts | cmd_keys.go:30-49 | the key add-key goes on with is the one read from the path, or one of the candidates; "no keys" happens exactly without a path and with no candidates; an unusable key carries the read's error with a path and the picker's error without one |
| Keys.AddKeySpec | cmd_keys.go:21-65 | the listing is the first call; add-key succeeds exactly when a key was obtained and the upload succeeded |
| Keys.AddKeyListsOnce | cmd_keys.go:22-37 | the keys are listed first and only once; every scan uses exactly the registered fingerprints, or none after a failed listing |
| Keys.AddKeyByPath | cmd_keys.go:31-45 | with a key path the second call reads it, and nothing is scanned, asked, created or picked; without one no path is read |
| Keys.LookupCounts | cmd_keys.go:31-45 | the lookup creates at most one key and scans at most twice |
| Keys.AddKeyCreatesAtMostOnce | cmd_keys.go:31-38 | at most one key creation and at most two scans over the whole of add-key |
| Keys.LookupAsks | cmd_keys.go:31-38 | within the lookup, the question is asked exactly without a key path and after an empty first scan, and a key is created exactly when the user then agrees |
| Keys.AddKeyAsksAndCreates | cmd_keys.go:31-38 | a key is created exactly when there is no key path, the first scan is empty and the user agrees; the question is asked exactly when there is no key path and the first scan is empty |
| Keys.AddKeyNoKeys | cmd_keys.go:40-42 | still no keys: "No SSH keys to add.", with no picker, no name question, no clock read and no upload |
| Keys.AddKeyRefuses | cmd_keys.go:31-49 | a failed read, or a failed pick, is returned behind "refusing to upload: " (Keys.Refusal, cmd_keys.go:48), with no name question, no clock read and no upload |
| Keys.UploadsSelected | cmd_keys.go:47-64 | once a key is selected, add-key uploads it exactly once, trimmed, under KeyName, and returns the upload's outcome |
| Keys.AddKeyUploads | cmd_keys.go:30-59 | the read key, or the picked candidate, is uploaded exactly once, trimmed, under the answer or else today's date, and the upload's outcome is the result |
| Keys.AddKeyReadsClock | cmd_keys.go:51-55 | add-key reads the clock exactly when it has a key to upload and the name answer is blank |
| Keys.AddKeyAnnounces | cmd_keys.go:58-64 | once an upload is made its outcome is returned unchanged, and "Added" is printed exactly when it succeeded |
| Keys.KeyCommands.NameAndUpload | cmd_keys.go:51-64 | the name question, the clock read for a blank answer, the upload and the announcement make exactly the calls of Upload under KeyName, and the result is the upload's outcome |
| Keys.KeyCommands.RunAddKey | cmd_keys.go:21-65 | the run body makes exactly the calls of AddKeySpec and returns its result; a key pair is created exactly when there is no key path, the first scan is empty and the user agrees |
| Keys.Rows | cmd_keys.go:80-82 | one row per listed key, row i showing key i |
| Keys.ListKeysSpec | cmd_keys.go:74-85 | fails exactly when the listing fails, returning its error after only the listing call; otherwise one row per listed key, in order |
| Keys.KeyCommands.RunListKeys | cmd_keys.go:74-85 | the run body makes exactly the calls of ListKeysSpec and returns its result |
| Keys.Menu | cmd_keys.go:99-101 | one row per listed key, row i showing key i under the number i + 1 |
| Keys.RemoveKeySpec | cmd_keys.go:93-116 | the listing is the first call; remove-key succeeds exactly when the listing, the pick and the delete all succeed |
| Keys.RemoveKeyShowsMenu | cmd_keys.go:94-103 | a failed listing returns its error after only the listing call; otherwise every key is shown, numbered from 1 in listing order, before one pick over that many keys |
| Keys.RemoveKeyStopsOnError | cmd_keys.go:94-106 | a failed listing or pick deletes nothing, and the pick's error is returned |
| Keys.RemoveKeyStartsWithMenu | cmd_keys.go:94-103 | after a successful listing the calls begin with the listing, the menu and the pick |
| Keys.ShownHasNoDelete | cmd_keys.go:94-103 | the listing, the menu and the pick neither delete a key nor announce a removal |
| Keys.RemoveKeyDeletesChosen | cmd_keys.go:108-112 | after a successful pick, exactly one delete of the chosen key's fingerprint and no other delete; its outcome is the result |
| Keys.RemoveKeyAnnounces | cmd_keys.go:109-114 | after a successful pick, "Removed" is printed exactly when the delete succeeded |
| Keys.KeyCommands.RunRemoveKey | cmd_keys.go:93-116 | the run body makes exactly the calls of RemoveKeySpec and returns its result |

## Left out

- HTTP, the API client and OAuth are oracles. `authorize` only leaves a trace entry and
  its effect on the stored token is not modelled. `ListKeys`, `UploadKey` and `DeleteKey`
  return scripted results.
- ssh parsing and marshalling: a local key is an opaque fingerprint plus the text
  `ssh.MarshalAuthorizedKey` would give. `sshReadPubKey` returns a scripted result.
- `getSSHKeys`: its filtering against the registered fingerprints is not part of this
  model. Its two possible answers (before and after `createSSHKey`) are scripted, and
  nothing is stated about their contents.
- Terminal prompts and `createSSHKey` are scripted answers. `shouldContinue`, `getText`,
  `pickSSHKey` and `pick` do their own validation, which is not part of this model.
  - Keys.AddKeyAnswersOk: a successful `pickSSHKey` is assumed to return one of the keys
    it was offered.
  - Keys.RemoveAnswersOk: a successful `pick` is assumed to return a position inside the
    list. Go would panic on `resp.Keys[choice]` otherwise.
- `time.Now()` is the scripted `today`, read through a `Now` call. Text.FormatDate covers
  years 0 to 9999. Go prints other years with more digits or a sign.
- `fmt.Printf` layout and column widths are not modelled. Printed lines are datatype
  values. Client.Render spells out the text of the lines `main` and `tryWithReauth`
  print; no contract refers to it.
- The `flag.Usage` closure of `main` (client.go:37-48) prints the usage listing of every
  command; the model keeps only a `Usage` event for that call, not the listing's text.
- The `flag` package is not modelled. `flag.Usage`, `flag.PrintDefaults`,
  `command.flags.PrintDefaults` and `command.flags.Parse` are trace events. A parse error
  under `flag.ExitOnError` would exit the process, and that is not modelled.
- `cmdLogin` and the project commands: their bodies are not part of this model, so the
  registry is a parameter. The key commands are modelled on their own, not through the
  run oracle of `Client.Process`.
- Client.Process.RunMain models one invocation. The command's run function is called at
  most twice, and `runs == 0` is required on entry.
- Client.MainEvents: the process exit status is not modelled. `main` can end the process
  early: `flag.Parse()` (client.go:50) and `command.flags.Parse` (client.go:91, with the
  `flag.ExitOnError` set of cmd_keys.go:66) exit on a bad flag. The model describes only
  the runs in which parsing returns.
- Client.Process.Authorize: the body of `authorize` is not part of this model. `main` and
  `tryWithReauth` call it as a statement and ignore any result (client.go:60, 126). The
  model assumes every call returns; "the command is run twice" after a forced
  re-authentication rests on that assumption.

=== FILE: client.dfy ===
/** The command registry, the authentication-retry wrapper and the dispatch in `main`
    of the `pk` command-line client (client.go).

    Everything `main` touches outside this file is an oracle: `authorize` only leaves a
    trace entry, and the k-th call of a command's `run` returns a scripted outcome.
    The trace records, in order, the calls to `authorize` and `run`, the flag-package
    actions, and the lines this code prints itself. */
module Client {
  import opened Outcomes
  import opened Traces

  /** `http.StatusUnauthorized`. */
  const StatusUnauthorized := 401

  /** A registered command. Its `run` function lives in the process's run oracle; the
      usage text only feeds the help listing. */
  datatype Command = Command(name: string, usage: string, hasFlags: bool)

  /** `findCommand`: the position of the first registered command called `name`. */
  function FindCommand(commands: seq<Command>, name: string): (r: Option<nat>)
    ensures r.Some? ==> r.value < |commands| && commands[r.value].name == name
    ensures r.Some? ==> forall j :: 0 <= j < r.value ==> commands[j].name != name
    ensures r.None? <==> forall j :: 0 <= j < |commands| ==> commands[j].name != name
  {
    if commands == [] then None
    else if commands[0].name == name then Some(0)
    else
      match FindCommand(commands[1..], name)
      case None => None
      case Some(i) => Some(i + 1)
  }

  ghost predicate UniqueNames(commands: seq<Command>)
  {
    forall i, j :: 0 <= i < j < |commands| ==> commands[i].name != commands[j].name
  }

  /** In a registry without duplicate names every command is found under its own name. */
  lemma FindRegistered(commands: seq<Command>, i: nat)
    requires UniqueNames(commands) && i < |commands|
    ensures FindCommand(commands, commands[i].name) == Some(i)
  {
  }

  /** `flag.Arg(i)`: the i-th positional argument, or "" when there is none. */
  function Arg(args: seq<string>, i: nat): string
  {
    if i < |args| then args[i] else ""
  }

  datatype Event =
    | Authorize(force: bool)                       // authorize(force)
    | Run(command: string)                         // one call of a command's run function
    | Say(line: Line)                              // a line printed by client.go itself
    | Usage                                        // flag.Usage(): the listing of all commands
    | Defaults                                     // flag.PrintDefaults() for the global flags
    | FlagDefaults(command: string)                // command.flags.PrintDefaults()
    | ParseFlags(command: string, args: seq<string>)  // command.flags.Parse(args)

  /** A line client.go prints itself; `Render` gives its text. */
  datatype Line =
    | TokenExpired                                 // tryWithReauth, expired OAuth token
    | BadToken                                     // tryWithReauth, 401 response
    | Names(text: string)                          // the -w listing
    | NoUsage(command: string)                     // help for a command without flags
    | Failed(command: string, message: string)     // the report of a failed command

  function Render(line: Line): string
  {
    match line
    case TokenExpired => "Access token has expired; please log in again."
    case BadToken => "Bad access token; please log in again."
    case Names(text) => text
    case NoUsage(command) => "No usage for " + command
    case Failed(command, message) => command + " error: " + message
  }

  /** What one call of `tryWithReauth` returns and the events it produces. */
  datatype Attempt = Attempt(result: Outcome, events: seq<Event>)

  /** `tryWithReauth(f)` for the run function of command `name`, whose first call
      returns `first` and whose second call, if made, returns `second`.
      Only a `*url.Error` wrapping an `OAuthError` or an `*api.APIError` with status 401
      leads to a forced re-authentication followed by exactly one more run. */
  function Reauth(name: string, first: Outcome, second: Outcome): (a: Attempt)
    // an expired token: message, forced authorization, second run, its result
    ensures first.Err? && first.error.UrlError? && first.error.cause == OAuthError ==>
      a.events == [Run(name), Say(TokenExpired), Authorize(true), Run(name)] && a.result == second
    // a 401 response: the same, with the other message
    ensures first.Err? && first.error.ApiError? && first.error.code == StatusUnauthorized ==>
      a.events == [Run(name), Say(BadToken), Authorize(true), Run(name)] && a.result == second
    // success, another API status, a url.Error around another cause, any other error:
    // one run, no authorization, the first result unchanged
    ensures first.Ok? || first.error.Plain? ||
            (first.error.UrlError? && first.error.cause != OAuthError) ||
            (first.error.ApiError? && first.error.code != StatusUnauthorized) ==>
      a.events == [Run(name)] && a.result == first
    // in every case: at most two runs, at most one authorization, and that one forced
    ensures Authorize(false) !in a.events
    ensures forall e :: e in a.events && e.Run? ==> e.command == name
  {
    match Notice(first)
    case Some(line) => Attempt(second, [Run(name), Say(line), Authorize(true), Run(name)])
    case None => Attempt(first, [Run(name)])
  }

  /** The type switch of `tryWithReauth`: the message printed before re-authenticating,
      or None when the error does not call for it. */
  function Notice(o: Outcome): (r: Option<Line>)
    ensures r == Some(TokenExpired) <==> o.Err? && o.error.UrlError? && o.error.cause == OAuthError
    ensures r == Some(BadToken) <==> o.Err? && o.error.ApiError? && o.error.code == StatusUnauthorized
    ensures r.None? || r == Some(TokenExpired) || r == Some(BadToken)
  {
    match o
    case Err(UrlError(OAuthError, _)) => Some(TokenExpired)
    case Err(ApiError(code, _)) => if code == StatusUnauthorized then Some(BadToken) else None
    case _ => None
  }

  /** Whatever the first result, `tryWithReauth` runs the command once or twice, authorizes
      exactly once per retry and always with `force` set, and never retries a second time. */
  lemma ReauthAtMostOnce(name: string, first: Outcome, second: Outcome)
    ensures var a := Reauth(name, first, second);
      1 <= Count(a.events, Run(name)) <= 2 &&
      Count(a.events, Authorize(true)) == Count(a.events, Run(name)) - 1 &&
      Count(a.events, Authorize(false)) == 0
  {
    var a := Reauth(name, first, second);
    if |a.events| == 4 {
      assert a.events == a.events[..2] + a.events[2..];
      CountConcat(a.events[..2], a.events[2..], Run(name));
      CountConcat(a.events[..2], a.events[2..], Authorize(true));
    }
  }

  /** The line printed for `-w`: every registered name followed by a space. */
  function NamesLine(commands: seq<Command>): string
  {
    if commands == [] then ""
    else NamesLine(commands[..|commands| - 1]) + commands[|commands| - 1].name + " "
  }

  /** The line for the first `j` commands begins the line for all of them. */
  lemma {:induction false} NamesLinePrefix(commands: seq<Command>, j: nat)
    requires j <= |commands|
    ensures NamesLine(commands[..j]) <= NamesLine(commands)
    decreases |commands| - j
  {
    if j < |commands| {
      var init := commands[..|commands| - 1];
      NamesLinePrefix(init, j);
      assert init[..j] == commands[..j];
      assert NamesLine(init) <= NamesLine(commands);
    } else {
      assert commands[..j] == commands;
    }
  }

  /** The `-w` line shows every registered name followed by a space, at the position where
      the names before it end. */
  lemma NamesLineShowsEach(commands: seq<Command>, i: nat)
    requires i < |commands|
    ensures var at, n := |NamesLine(commands[..i])|, commands[i].name;
      at + |n| + 1 <= |NamesLine(commands)| &&
      NamesLine(commands)[at..at + |n| + 1] == n + " "
  {
    assert commands[..i + 1][..i] == commands[..i];
    NamesLinePrefix(commands, i + 1);
  }

  /** The names appear in registry order: a name ends before any later one starts. */
  lemma NamesLineInOrder(commands: seq<Command>, i: nat, j: nat)
    requires i < j <= |commands|
    ensures |NamesLine(commands[..i])| + |commands[i].name| + 1 <= |NamesLine(commands[..j])|
  {
    assert commands[..j][..i + 1] == commands[..i + 1];
    assert commands[..i + 1][..i] == commands[..i];
    NamesLinePrefix(commands[..j], i + 1);
  }

  /** The events of one run of `main`, given the value of `-w`, the positional
      arguments left by `flag.Parse`, and the first two results of the chosen
      command's run function. */
  function MainEvents(commands: seq<Command>, w: bool, args: seq<string>,
                      first: Outcome, second: Outcome): (r: seq<Event>)
    // -w: print the names and stop, before any authorization
    ensures w ==> r == [Say(Names(NamesLine(commands)))]
    // otherwise the non-forced authorization comes first, and happens exactly once
    ensures !w ==> |r| > 0 && r[0] == Authorize(false) && Authorize(false) !in r[1..]
    ensures !w && |args| == 0 ==> r == [Authorize(false), Usage]
    ensures !w && |args| > 0 && args[0] == "help" && FindCommand(commands, Arg(args, 1)).None? ==>
      r == [Authorize(false), Defaults]
    ensures !w && |args| > 0 && args[0] != "help" && FindCommand(commands, args[0]).None? ==>
      r == [Authorize(false), Defaults]
    // help for a registered command: its flag defaults, or "No usage for <name>" without flags
    ensures !w && |args| > 0 && args[0] == "help" && FindCommand(commands, Arg(args, 1)).Some? ==>
      var c := commands[FindCommand(commands, Arg(args, 1)).value];
      r == [Authorize(false), if c.hasFlags then FlagDefaults(c.name) else Say(NoUsage(c.name))]
    // a found command: flags parsed when it has a flag set, then run through the wrapper,
    // and a failure reported as "<name> error: <message>"
    ensures !w && |args| > 0 && args[0] != "help" && FindCommand(commands, args[0]).Some? ==>
      var c := commands[FindCommand(commands, args[0]).value];
      var a := Reauth(c.name, first, second);
      var parse := if c.hasFlags then [ParseFlags(c.name, args[1..])] else [];
      r == [Authorize(false)] + (parse + a.events +
           (if a.result.Err? then [Say(Failed(args[0], a.result.error.text))] else []))
  {
    if w then [Say(Names(NamesLine(commands)))]
    else [Authorize(false)] + DispatchEvents(commands, args, first, second)
  }

  /** No arguments, `help`, or an unknown name: no command is run. Only the command named
      on the command line is ever run. */
  lemma MainRunsOnlyNamed(commands: seq<Command>, w: bool, args: seq<string>,
                          first: Outcome, second: Outcome)
    ensures var r := MainEvents(commands, w, args, first, second);
      (exists e :: e in r && e.Run?) ==> !w && Dispatched(commands, args)
    ensures var r := MainEvents(commands, w, args, first, second);
      forall e :: e in r && e.Run? ==> e.command == Arg(args, 0)
  {
    if !w && Dispatched(commands, args) {
      var c := commands[FindCommand(commands, args[0]).value];
      var a := Reauth(c.name, first, second);
      var parse := if c.hasFlags then [ParseFlags(c.name, args[1..])] else [];
      var report := if a.result.Err? then [Say(Failed(args[0], a.result.error.text))] else [];
      assert MainEvents(commands, w, args, first, second) == [Authorize(false)] + (parse + a.events + report);
    }
  }

  /** Across every path of `main`: at most two runs, at most one forced authorization,
      and exactly one non-forced authorization unless `-w` was given. */
  lemma MainRunsAtMostTwice(commands: seq<Command>, w: bool, args: seq<string>,
                            first: Outcome, second: Outcome)
    ensures var r := MainEvents(commands, w, args, first, second);
      Count(r, Run(Arg(args, 0))) <= 2 && Count(r, Authorize(true)) <= 1 &&
      Count(r, Authorize(false)) == (if w then 0 else 1)
  {
    if !w {
      var d := DispatchEvents(commands, args, first, second);
      DispatchAtMostTwice(commands, args, first, second);
      CountConcat([Authorize(false)], d, Run(Arg(args, 0)));
      CountConcat([Authorize(false)], d, Authorize(true));
      CountConcat([Authorize(false)], d, Authorize(false));
    }
  }

  lemma DispatchAtMostTwice(commands: seq<Command>, args: seq<string>, first: Outcome, second: Outcome)
    ensures var d := DispatchEvents(commands, args, first, second);
      Count(d, Run(Arg(args, 0))) <= 2 && Count(d, Authorize(true)) <= 1 &&
      Count(d, Authorize(false)) == 0
  {
    var d := DispatchEvents(commands, args, first, second);
    if |args| > 0 && args[0] != "help" && FindCommand(commands, args[0]).Some? {
      var c := commands[FindCommand(commands, args[0]).value];
      var a := Reauth(c.name, first, second);
      ReauthAtMostOnce(c.name, first, second);
      var parse: seq<Event> := if c.hasFlags then [ParseFlags(c.name, args[1..])] else [];
      var report: seq<Event> :=
        if a.result.Err? then [Say(Failed(args[0], a.result.error.text))] else [];
      assert d == parse + a.events + report;
      CountBetween(parse, a.events, report, Run(args[0]));
      CountBetween(parse, a.events, report, Authorize(true));
      CountBetween(parse, a.events, report, Authorize(false));
    }
  }

  /** Whether `main` gets as far as running a command: there is a first argument, it is
      not `help`, and it names a registered command. */
  predicate Dispatched(commands: seq<Command>, args: seq<string>)
  {
    |args| > 0 && args[0] != "help" && FindCommand(commands, args[0]).Some?
  }

  /** The events of `main` after `authorize(false)`. */
  function DispatchEvents(commands: seq<Command>, args: seq<string>,
                          first: Outcome, second: Outcome): seq<Event>
  {
    if |args| == 0 then [Usage]
    else if args[0] == "help" then
      match FindCommand(commands, Arg(args, 1))
      case None => [Defaults]
      case Some(i) =>
        if commands[i].hasFlags then [FlagDefaults(commands[i].name)]
        else [Say(NoUsage(commands[i].name))]
    else
      match FindCommand(commands, args[0])
      case None => [Defaults]
      case Some(i) =>
        var c := commands[i];
        var a := Reauth(c.name, first, second);
        var parse := if c.hasFlags then [ParseFlags(c.name, args[1..])] else [];
        parse + a.events + (if a.result.Err? then [Say(Failed(args[0], a.result.error.text))] else [])
  }

  /** One process of the client: the fixed registry, the scripted results of the
      dispatched command's run function (its first call and, if made, its second), the
      number of runs made so far, and the trace of what has happened. */
  class Process {
    const commands: seq<Command>
    const firstRun: Outcome
    const secondRun: Outcome
    var runs: nat
    ghost var trace: seq<Event>

    constructor (commands: seq<Command>, firstRun: Outcome, secondRun: Outcome)
      ensures this.commands == commands && this.firstRun == firstRun && this.secondRun == secondRun
      ensures runs == 0 && trace == []
    {
      this.commands := commands;
      this.firstRun := firstRun;
      this.secondRun := secondRun;
      runs := 0;
      trace := [];
    }

    /** The OAuth bootstrap; its effect on the credential is outside this model. */
    method Authorize(force: bool)
      modifies this`trace
      ensures trace == old(trace) + [Event.Authorize(force)]
    {
      trace := trace + [Event.Authorize(force)];
    }

    /** One call of the dispatched command's run function. */
    method CallRun(name: string) returns (o: Outcome)
      modifies this`runs, this`trace
      ensures o == (if old(runs) == 0 then firstRun else secondRun)
      ensures runs == old(runs) + 1 && trace == old(trace) + [Run(name)]
    {
      o := if runs == 0 then firstRun else secondRun;
      runs := runs + 1;
      trace := trace + [Run(name)];
    }

    method Println(line: Line)
      modifies this`trace
      ensures trace == old(trace) + [Say(line)]
    {
      trace := trace + [Say(line)];
    }

    method Record(e: Event)
      modifies this`trace
      ensures trace == old(trace) + [e]
    {
      trace := trace + [e];
    }

    /** `tryWithReauth(command.run)`. */
    method TryWithReauth(name: string) returns (err: Outcome)
      requires runs == 0
      modifies this`runs, this`trace
      ensures var a := Reauth(name, firstRun, secondRun);
        err == a.result && trace == old(trace) + a.events
      ensures runs == if Notice(firstRun).Some? then 2 else 1
    {
      err := CallRun(name);
      var needsReauth := false;
      if err.Err? && err.error.UrlError? {
        if err.error.cause == OAuthError {
          Println(TokenExpired);
          needsReauth := true;
        }
      } else if err.Err? && err.error.ApiError? {
        if err.error.code == StatusUnauthorized {
          Println(BadToken);
          needsReauth := true;
        }
      }
      if needsReauth {
        Authorize(true);
        err := CallRun(name);
      }
    }

    /** `main` after `flag.Parse()`: `w` is the value of `-w`, `args` the positional arguments. */
    method RunMain(w: bool, args: seq<string>)
      requires runs == 0
      modifies this`runs, this`trace
      ensures trace == old(trace) + MainEvents(commands, w, args, firstRun, secondRun)
      ensures runs == if w || !Dispatched(commands, args) then 0
                      else if Notice(firstRun).Some? then 2 else 1
    {
      if w {
        PrintNames();
        return;
      }

      ghost var before := trace;
      Authorize(false);
      Dispatch(args);
      Associative(before, [Event.Authorize(false)], DispatchEvents(commands, args, firstRun, secondRun));
    }

    /** The `-w` listing: every command name followed by a space, on one line. */
    method PrintNames()
      modifies this`trace
      ensures trace == old(trace) + [Say(Names(NamesLine(commands)))]
    {
      var line := "";
      var i := 0;
      while i < |commands|
        invariant 0 <= i <= |commands|
        invariant line == NamesLine(commands[..i])
      {
        assert commands[..i + 1][..i] == commands[..i];
        line := line + commands[i].name + " ";
        i := i + 1;
      }
      assert commands[..i] == commands;
      Println(Names(line));
    }

    /** The branches of `main` after `authorize(false)`. */
    method Dispatch(args: seq<string>)
      requires runs == 0
      modifies this`runs, this`trace
      ensures trace == old(trace) + DispatchEvents(commands, args, firstRun, secondRun)
      ensures runs == if !Dispatched(commands, args) then 0
                      else if Notice(firstRun).Some? then 2 else 1
    {
      if |args| == 0 {
        Record(Usage);
        return;
      }

      if args[0] == "help" {
        var found := FindCommand(commands, Arg(args, 1));
        if found.None? {
          Record(Defaults);
          return;
        }
        var command := commands[found.value];
        if !command.hasFlags {
          Println(NoUsage(command.name));
        } else {
          Record(FlagDefaults(command.name));
        }
        return;
      }

      var found := FindCommand(commands, args[0]);
      if found.None? {
        Record(Defaults);
        return;
      }
      var command := commands[found.value];
      ghost var before := trace;
      if command.hasFlags {
        Record(ParseFlags(command.name, args[1..]));
      }
      ghost var parsed := trace;
      var err := TryWithReauth(command.name);
      ghost var a := Reauth(command.name, firstRun, secondRun);
      ghost var run := trace;
      if err.Err? {
        Println(Failed(args[0], err.error.text));
      }
      ghost var parse := parsed[|before|..];
      ghost var report := trace[|run|..];
      assert parsed == before + parse;
      assert trace == before + parse + a.events + report;
      Associative(before, parse, a.events);
      Associative(before, parse + a.events, report);
    }
  }
}

=== FILE: keys.dfy ===
/** The `run` bodies of the key commands `add-key`, `list-keys` and `remove-key`
    (cmd_keys.go).

    Every collaborator is an oracle whose answers are fixed in a `Script`: the account's
    key listing, the `key-path` flag, the parsed key at that path, the local keys found
    before and after a key pair is created, the terminal answers, today's date, and the
    results of the upload and delete requests. A command records each collaborator call,
    with its arguments, in a trace. */
module Keys {
  import opened Outcomes
  import opened Traces
  import Text

  const NoKeysMessage := "No SSH keys to add."
  const RefusalPrefix := "refusing to upload: "

  /** A local public key: its fingerprint and `ssh.MarshalAuthorizedKey` of it, as text. */
  datatype PubKey = PubKey(fingerprint: string, authorized: string)

  /** A key registered with the account, as the API lists it. */
  datatype RemoteKey = RemoteKey(name: string, fingerprint: string, preview: string)

  /** The answer of an interactive picker: a position in the offered list, or an error. */
  datatype Choice = Chosen(index: nat) | Refused(error: Error)

  datatype Script = Script(
    listing: Result<seq<RemoteKey>>,  // client.ListKeys()
    keyPath: string,                  // the key-path flag of add-key
    readKey: Result<PubKey>,          // sshReadPubKey(keyPath)
    firstScan: seq<PubKey>,           // getSSHKeys before any key is created
    secondScan: seq<PubKey>,          // getSSHKeys after createSSHKey
    confirmCreate: bool,              // shouldContinue("No SSH keys to add. Create a new key?")
    keyChoice: Choice,                // pickSSHKey(keys, os.Stdout)
    nameAnswer: string,               // getText("Name this key [optional]")
    today: Text.Date,                 // time.Now()
    upload: Outcome,                  // client.UploadKey(name, text)
    removeChoice: Choice,             // pick("key", n)
    deletion: Outcome)                // client.DeleteKey(fingerprint)

  /** A line the key commands print. */
  datatype Line =
    | Added(name: string)                    // "Added key '<name>'."
    | Removed(preview: string)               // "Removed key <preview>"
    | KeyRow(key: RemoteKey)                 // one row of list-keys
    | MenuRow(number: nat, key: RemoteKey)   // one numbered row of remove-key's menu

  datatype Call =
    | ListKeys
    | ReadPubKey(path: string)
    | GetSSHKeys(existing: map<string, bool>)
    | ShouldContinue                         // the create-a-key question
    | CreateSSHKey
    | PickSSHKey(candidates: seq<PubKey>)
    | GetText                                // the key-name question
    | Now                                    // the clock read for a blank name
    | UploadKey(name: string, text: string)
    | Pick(noun: string, count: nat)
    | DeleteKey(fingerprint: string)
    | Say(line: Line)

  /** What one run of a command returns and the calls it makes. */
  datatype Exec = Exec(result: Outcome, calls: seq<Call>)

  /** `fmt.Errorf("refusing to upload: %s", err)`. */
  function Refusal(e: Error): Error
  {
    Plain(RefusalPrefix + e.text)
  }

  function Fingerprints(keys: seq<RemoteKey>): set<string>
  {
    set k | k in keys :: k.fingerprint
  }

  /** `existingKeyFingerprints` once the listing has been read: every listed fingerprint
      mapped to true, or nothing at all when the listing failed. */
  function Registered(listing: Result<seq<RemoteKey>>): map<string, bool>
  {
    if listing.Success? then map f | f in Fingerprints(listing.value) :: true else map[]
  }

  /** After a successful listing the registered map's keys are exactly the listed
      fingerprints; after a failed one it is empty; every value is true. */
  lemma RegisteredFacts(listing: Result<seq<RemoteKey>>)
    ensures listing.Success? ==> Registered(listing).Keys == Fingerprints(listing.value)
    ensures listing.Failure? ==> Registered(listing) == map[]
    ensures forall f :: f in Registered(listing) ==> Registered(listing)[f]
  {
  }

  /** The filling loop of `existingKeyFingerprints`. */
  method CollectFingerprints(keys: seq<RemoteKey>) returns (m: map<string, bool>)
    ensures m.Keys == Fingerprints(keys)
    ensures forall f :: f in m ==> m[f]
  {
    m := map[];
    var i := 0;
    while i < |keys|
      invariant 0 <= i <= |keys|
      invariant m.Keys == Fingerprints(keys[..i])
      invariant forall f :: f in m ==> m[f]
    {
      assert keys[..i + 1] == keys[..i] + [keys[i]];
      m := m[keys[i].fingerprint := true];
      i := i + 1;
    }
    assert keys[..i] == keys;
  }

  /** The local keys add-key offers when no key path is given: the first scan, or the
      scan after creating a key when the first was empty and the user agreed. */
  function Candidates(s: Script): seq<PubKey>
  {
    if s.firstScan == [] && s.confirmCreate then s.secondScan else s.firstScan
  }

  /** The name add-key uploads under: the answer, or today's date when it is blank. */
  function KeyName(s: Script): (r: string)
    requires s.nameAnswer == "" ==> Text.ValidDate(s.today)
    ensures s.nameAnswer != "" ==> r == s.nameAnswer
    ensures s.nameAnswer == "" ==>
      |r| == 10 && r[4] == '-' && r[7] == '-' &&
      Text.AllDigits(r[..4]) && Text.AllDigits(r[5..7]) && Text.AllDigits(r[8..]) &&
      Text.DecimalValue(r[..4]) == s.today.year &&
      Text.DecimalValue(r[5..7]) == s.today.month &&
      Text.DecimalValue(r[8..]) == s.today.day
  {
    if s.nameAnswer == "" then Text.FormatDate(s.today) else s.nameAnswer
  }

  /** What add-key relies on from its collaborators: the clock, when it is read, gives a
      four-digit-year date, and a successful pickSSHKey picks one of the keys it was offered. */
  predicate AddKeyAnswersOk(s: Script)
  {
    (s.nameAnswer == "" ==> Text.ValidDate(s.today)) &&
    (s.keyPath == "" && Candidates(s) != [] && s.keyChoice.Chosen? ==>
       s.keyChoice.index < |Candidates(s)|)
  }

  /** Where add-key's key comes from: the key read from the key path or picked from the
      candidates, no candidates at all, or an error from the read or the picker. */
  datatype Selection = Key(key: PubKey) | NoKeys | Unusable(error: Error)

  function Select(s: Script): Selection
    requires AddKeyAnswersOk(s)
  {
    if s.keyPath != "" then
      match s.readKey
      case Failure(e) => Unusable(e)
      case Success(key) => Key(key)
    else if Candidates(s) == [] then NoKeys
    else
      match s.keyChoice
      case Refused(e) => Unusable(e)
      case Chosen(i) => Key(Candidates(s)[i])
  }

  /** The key add-key goes on with is the one read from the path or one of the candidates
      offered; "no keys" happens exactly without a path and with no candidates; an unusable
      key carries the error of the read, or of the picker. */
  lemma SelectFacts(s: Script)
    requires AddKeyAnswersOk(s)
    ensures var r := Select(s);
      r.Key? ==> if s.keyPath != "" then s.readKey == Success(r.key) else r.key in Candidates(s)
    ensures Select(s).NoKeys? <==> s.keyPath == "" && Candidates(s) == []
    ensures var r := Select(s);
      r.Unusable? ==>
        if s.keyPath != "" then s.readKey == Failure(r.error) else s.keyChoice == Refused(r.error)
  {
  }

  /** The local-key scans of add-key, with the create-a-key question and the key creation
      between them when the first scan is empty. */
  function Scan(s: Script): (r: seq<Call>)
    ensures r != [] && r[0] == GetSSHKeys(Registered(s.listing))
    ensures forall c :: c in r ==>
      c == GetSSHKeys(Registered(s.listing)) || c == ShouldContinue || c == CreateSSHKey
    ensures CreateSSHKey in r <==> s.firstScan == [] && s.confirmCreate
    ensures ShouldContinue in r <==> s.firstScan == []
  {
    var existing := Registered(s.listing);
    [GetSSHKeys(existing)] +
      if s.firstScan != [] then []
      else if s.confirmCreate then [ShouldContinue, CreateSSHKey, GetSSHKeys(existing)]
      else [ShouldContinue]
  }

  /** At most one key creation and at most two scans. */
  lemma ScanCounts(s: Script)
    ensures Count(Scan(s), CreateSSHKey) <= 1
    ensures Count(Scan(s), GetSSHKeys(Registered(s.listing))) <= 2
  {
    var g := GetSSHKeys(Registered(s.listing));
    if s.firstScan == [] && s.confirmCreate {
      assert Scan(s) == [g, ShouldContinue] + [CreateSSHKey, g];
      CountConcat([g, ShouldContinue], [CreateSSHKey, g], CreateSSHKey);
      CountConcat([g, ShouldContinue], [CreateSSHKey, g], g);
    }
  }

  /** The calls add-key makes after the listing and before it has a key: the read of the
      key path, or the scans and, when they found candidates, the picker. */
  function Lookup(s: Script): (r: seq<Call>)
    ensures forall c :: c in r ==> c != ListKeys && c != GetText && !c.UploadKey? && !c.Say?
    ensures forall c :: c in r ==>
      c.ReadPubKey? || c.GetSSHKeys? || c == ShouldContinue || c == CreateSSHKey || c.PickSSHKey?
    ensures forall c :: c in r && c.GetSSHKeys? ==> c.existing == Registered(s.listing)
    ensures s.keyPath != "" ==> r == [ReadPubKey(s.keyPath)]
    ensures s.keyPath == "" ==> forall c :: c in r ==> !c.ReadPubKey?
    ensures forall c :: c in r && c.PickSSHKey? ==> s.keyPath == "" && c == PickSSHKey(Candidates(s))
    ensures s.keyPath == "" ==> (PickSSHKey(Candidates(s)) in r <==> Candidates(s) != [])
  {
    if s.keyPath != "" then [ReadPubKey(s.keyPath)]
    else if Candidates(s) == [] then Scan(s)
    else Scan(s) + [PickSSHKey(Candidates(s))]
  }

  /** The calls that name the key: the question, then the clock when the answer is blank. */
  function Naming(s: Script): (r: seq<Call>)
    ensures forall c :: c in r ==> c == GetText || c == Now
    ensures Now in r <==> s.nameAnswer == ""
  {
    if s.nameAnswer == "" then [GetText, Now] else [GetText]
  }

  /** The calls add-key makes once it has a key: the name question, the upload under
      `name` (KeyName's answer) and, when the upload succeeds, the announcement. */
  function Upload(s: Script, name: string, key: PubKey): (r: seq<Call>)
    ensures forall c :: c in r ==> c == GetText || c == Now || c.UploadKey? || c.Say?
    ensures forall c :: c in r && c.UploadKey? ==>
      c == UploadKey(name, Text.TrimSpace(key.authorized))
    ensures Say(Added(name)) in r <==> s.upload.Ok?
  {
    var uploaded := UploadKey(name, Text.TrimSpace(key.authorized));
    var announced := if s.upload.Ok? then [Say(Added(name))] else [];
    Naming(s) + ([uploaded] + announced)
  }

  /** Exactly one upload. */
  lemma UploadOnce(s: Script, name: string, key: PubKey)
    ensures Count(Upload(s, name, key), UploadKey(name, Text.TrimSpace(key.authorized))) == 1
  {
    var u := UploadKey(name, Text.TrimSpace(key.authorized));
    var tail := if s.upload.Ok? then [Say(Added(name))] else [];
    var asked := Naming(s);
    assert Upload(s, name, key) == asked + ([u] + tail);
    CountConcat(asked, [u] + tail, u);
    CountConcat([u], tail, u);
  }

  /** What follows the lookup: the upload steps when there is a key, nothing otherwise. */
  function After(s: Script): (r: seq<Call>)
    requires AddKeyAnswersOk(s)
    ensures forall c :: c in r ==> c == GetText || c == Now || c.UploadKey? || c.Say?
  {
    match Select(s)
    case Key(key) => Upload(s, KeyName(s), key)
    case _ => []
  }

  /** add-key. */
  function AddKeySpec(s: Script): (x: Exec)
    requires AddKeyAnswersOk(s)
    ensures |x.calls| >= 1 && x.calls[0] == ListKeys
    ensures x.result.Ok? <==> Select(s).Key? && s.upload.Ok?
  {
    var calls := [ListKeys] + Lookup(s) + After(s);
    match Select(s)
    case NoKeys => Exec(Err(Plain(NoKeysMessage)), calls)
    case Unusable(e) => Exec(Err(Refusal(e)), calls)
    case Key(_) => Exec(s.upload, calls)
  }

  /** Proof step: add-key's calls regrouped as the listing, the lookup, and what follows it. */
  lemma AddKeyCalls(s: Script)
    requires AddKeyAnswersOk(s)
    ensures AddKeySpec(s).calls == [ListKeys] + (Lookup(s) + After(s))
  {
  }

  /** The account's keys are listed first and only once, and the local keys are always
      looked up against exactly the listed fingerprints, or none when the listing failed. */
  lemma AddKeyListsOnce(s: Script)
    requires AddKeyAnswersOk(s)
    ensures var x := AddKeySpec(s);
      x.calls[0] == ListKeys && ListKeys !in x.calls[1..] &&
      forall c :: c in x.calls && c.GetSSHKeys? ==> c.existing == Registered(s.listing)
  {
    var rest := Lookup(s) + After(s);
    AddKeyCalls(s);
    assert ([ListKeys] + rest)[1..] == rest;
  }

  /** With a key path the key comes only from sshReadPubKey: no scan, no question, no key
      creation and no picker. Without one the path is never read. */
  lemma AddKeyByPath(s: Script)
    requires AddKeyAnswersOk(s)
    ensures var x := AddKeySpec(s);
      s.keyPath != "" ==>
        x.calls[1] == ReadPubKey(s.keyPath) &&
        forall c :: c in x.calls ==>
          !c.GetSSHKeys? && c != ShouldContinue && c != CreateSSHKey && !c.PickSSHKey?
    ensures var x := AddKeySpec(s);
      s.keyPath == "" ==> forall c :: c in x.calls ==> !c.ReadPubKey?
  {
    var l, a := Lookup(s), After(s);
    assert AddKeySpec(s).calls == [ListKeys] + l + a;
    if s.keyPath != "" {
      assert ([ListKeys] + l + a)[1] == ReadPubKey(s.keyPath);
    }
  }

  /** A key is created at most once, and the local keys are scanned at most twice. */
  lemma AddKeyCreatesAtMostOnce(s: Script)
    requires AddKeyAnswersOk(s)
    ensures var x := AddKeySpec(s);
      Count(x.calls, CreateSSHKey) <= 1 &&
      Count(x.calls, GetSSHKeys(Registered(s.listing))) <= 2
  {
    var l, a := Lookup(s), After(s);
    var g := GetSSHKeys(Registered(s.listing));
    AddKeyCalls(s);
    Associative([ListKeys], l, a);
    CountBetween([ListKeys], l, a, CreateSSHKey);
    CountBetween([ListKeys], l, a, g);
    LookupCounts(s);
  }

  /** The lookup creates at most one key and scans at most twice. */
  lemma LookupCounts(s: Script)
    ensures Count(Lookup(s), CreateSSHKey) <= 1
    ensures Count(Lookup(s), GetSSHKeys(Registered(s.listing))) <= 2
  {
    ScanCounts(s);
    if s.keyPath == "" && Candidates(s) != [] {
      var g := GetSSHKeys(Registered(s.listing));
      CountConcat(Scan(s), [PickSSHKey(Candidates(s))], CreateSSHKey);
      CountConcat(Scan(s), [PickSSHKey(Candidates(s))], g);
    }
  }

  /** The create-a-key question is asked exactly when there is no key path and the first
      scan finds nothing, and a key is created exactly when the user then agrees. */
  lemma AddKeyAsksAndCreates(s: Script)
    requires AddKeyAnswersOk(s)
    ensures var x := AddKeySpec(s);
      CreateSSHKey in x.calls <==> s.keyPath == "" && s.firstScan == [] && s.confirmCreate
    ensures var x := AddKeySpec(s);
      ShouldContinue in x.calls <==> s.keyPath == "" && s.firstScan == []
  {
    var l, a := Lookup(s), After(s);
    AddKeyCalls(s);
    assert CreateSSHKey !in a && ShouldContinue !in a;
    assert CreateSSHKey in AddKeySpec(s).calls <==> CreateSSHKey in l;
    assert ShouldContinue in AddKeySpec(s).calls <==> ShouldContinue in l;
    LookupAsks(s);
  }

  /** Within the lookup: the question exactly after an empty first scan without a key path,
      the key creation exactly when the user then agrees. */
  lemma LookupAsks(s: Script)
    ensures CreateSSHKey in Lookup(s) <==> s.keyPath == "" && s.firstScan == [] && s.confirmCreate
    ensures ShouldContinue in Lookup(s) <==> s.keyPath == "" && s.firstScan == []
  {
    if s.keyPath == "" && Candidates(s) != [] {
      assert forall c :: c in Lookup(s) <==> c in Scan(s) || c == PickSSHKey(Candidates(s));
    }
  }

  /** With no candidate keys even after the offer to create one, add-key fails with
      "No SSH keys to add." and neither picks, asks for a name nor uploads. */
  lemma AddKeyNoKeys(s: Script)
    requires AddKeyAnswersOk(s)
    requires s.keyPath == "" && Candidates(s) == []
    ensures var x := AddKeySpec(s);
      x.result == Err(Plain(NoKeysMessage)) &&
      forall c :: c in x.calls ==> !c.PickSSHKey? && c != GetText && c != Now && !c.UploadKey?
  {
  }

  /** An error from sshReadPubKey or from the picker is returned behind "refusing to upload: ",
      and nothing is uploaded. */
  lemma AddKeyRefuses(s: Script)
    requires AddKeyAnswersOk(s)
    ensures var x := AddKeySpec(s);
      s.keyPath != "" && s.readKey.Failure? ==>
        x.result == Err(Refusal(s.readKey.error)) &&
        forall c :: c in x.calls ==> c != GetText && c != Now && !c.UploadKey?
    ensures var x := AddKeySpec(s);
      s.keyPath == "" && Candidates(s) != [] && s.keyChoice.Refused? ==>
        x.result == Err(Refusal(s.keyChoice.error)) &&
        forall c :: c in x.calls ==> c != GetText && c != Now && !c.UploadKey?
  {
    SelectFacts(s);
    if Select(s).Unusable? {
      AddKeyCalls(s);
      assert After(s) == [];
      assert AddKeySpec(s).calls == [ListKeys] + Lookup(s);
    }
  }

  /** The chosen key is uploaded exactly once, trimmed, under the answer or else today's
      date; the upload's error is returned unchanged and only its success is announced. */
  lemma AddKeyUploads(s: Script)
    requires AddKeyAnswersOk(s)
    ensures var x := AddKeySpec(s);
      var name := if s.nameAnswer == "" then Text.FormatDate(s.today) else s.nameAnswer;
      s.keyPath != "" && s.readKey.Success? ==>
        x.result == s.upload &&
        Count(x.calls, UploadKey(name, Text.TrimSpace(s.readKey.value.authorized))) == 1
    ensures var x := AddKeySpec(s);
      var name := if s.nameAnswer == "" then Text.FormatDate(s.today) else s.nameAnswer;
      s.keyPath == "" && Candidates(s) != [] && s.keyChoice.Chosen? ==>
        x.result == s.upload && PickSSHKey(Candidates(s)) in x.calls &&
        Count(x.calls, UploadKey(name, Text.TrimSpace(Candidates(s)[s.keyChoice.index].authorized))) == 1
  {
    SelectFacts(s);
    if Select(s).Key? {
      UploadsSelected(s);
    }
  }

  /** Once a key is selected, add-key uploads it exactly once and returns the upload's outcome. */
  lemma UploadsSelected(s: Script)
    requires AddKeyAnswersOk(s) && Select(s).Key?
    ensures var x := AddKeySpec(s);
      x.result == s.upload &&
      Count(x.calls, UploadKey(KeyName(s), Text.TrimSpace(Select(s).key.authorized))) == 1
  {
    var l, a := Lookup(s), After(s);
    var key := Select(s).key;
    var u := UploadKey(KeyName(s), Text.TrimSpace(key.authorized));
    AddKeyCalls(s);
    Associative([ListKeys], l, a);
    assert u !in [ListKeys] + l;
    UploadOnce(s, KeyName(s), key);
    CountConcat([ListKeys] + l, a, u);
  }

  /** Whenever an upload is made, its outcome is add-key's result, and the key is announced
      as added exactly when the upload succeeded. */
  lemma AddKeyAnnounces(s: Script)
    requires AddKeyAnswersOk(s)
    ensures var x := AddKeySpec(s);
      forall c :: c in x.calls && c.UploadKey? ==>
        x.result == s.upload && (Say(Added(c.name)) in x.calls <==> s.upload.Ok?)
  {
    var l, a := Lookup(s), After(s);
    assert AddKeySpec(s).calls == ([ListKeys] + l) + a;
  }

  /** The clock is read only to name a key: exactly when add-key has a key to upload and
      the name answer is blank. */
  lemma AddKeyReadsClock(s: Script)
    requires AddKeyAnswersOk(s)
    ensures Now in AddKeySpec(s).calls <==> Select(s).Key? && s.nameAnswer == ""
  {
    var l, a := Lookup(s), After(s);
    AddKeyCalls(s);
    assert Now !in [ListKeys] && Now !in l;
    assert Now in AddKeySpec(s).calls <==> Now in a;
    if Select(s).Key? {
      var key := Select(s).key;
      var rest := [UploadKey(KeyName(s), Text.TrimSpace(key.authorized))] +
                  if s.upload.Ok? then [Say(Added(KeyName(s)))] else [];
      assert a == Naming(s) + rest;
      assert Now !in rest;
    }
  }

  /** The rows list-keys prints, one per registered key, in listing order. */
  function Rows(keys: seq<RemoteKey>): (r: seq<Call>)
    ensures |r| == |keys|
    ensures forall i :: 0 <= i < |keys| ==> r[i] == Say(KeyRow(keys[i]))
  {
    seq(|keys|, i requires 0 <= i < |keys| => Say(KeyRow(keys[i])))
  }

  /** list-keys. */
  function ListKeysSpec(s: Script): (x: Exec)
    ensures x.result.Err? <==> s.listing.Failure?
    ensures s.listing.Failure? ==> x == Exec(Err(s.listing.error), [ListKeys])
    ensures s.listing.Success? ==>
      |x.calls| == |s.listing.value| + 1 && x.calls[0] == ListKeys &&
      forall i :: 0 <= i < |s.listing.value| ==> x.calls[i + 1] == Say(KeyRow(s.listing.value[i]))
  {
    match s.listing
    case Failure(e) => Exec(Err(e), [ListKeys])
    case Success(keys) => Exec(Ok, [ListKeys] + Rows(keys))
  }

  /** The numbered menu remove-key prints, numbered from 1. */
  function Menu(keys: seq<RemoteKey>): (r: seq<Call>)
    ensures |r| == |keys|
    ensures forall c :: c in r ==> c.Say? && c.line.MenuRow?
    ensures forall i :: 0 <= i < |keys| ==> r[i] == Say(MenuRow(i + 1, keys[i]))
  {
    seq(|keys|, i requires 0 <= i < |keys| => Say(MenuRow(i + 1, keys[i])))
  }

  /** What remove-key relies on from `pick`: a successful pick is a position in the list. */
  predicate RemoveAnswersOk(s: Script)
  {
    s.listing.Success? && s.removeChoice.Chosen? ==> s.removeChoice.index < |s.listing.value|
  }

  /** remove-key. */
  function RemoveKeySpec(s: Script): (x: Exec)
    requires RemoveAnswersOk(s)
    ensures |x.calls| >= 1 && x.calls[0] == ListKeys
    ensures x.result.Ok? <==> s.listing.Success? && s.removeChoice.Chosen? && s.deletion.Ok?
  {
    match s.listing
    case Failure(e) => Exec(Err(e), [ListKeys])
    case Success(keys) =>
      var shown := [ListKeys] + Menu(keys) + [Pick("key", |keys|)];
      match s.removeChoice
      case Refused(e) => Exec(Err(e), shown)
      case Chosen(i) =>
        var deleted := shown + [DeleteKey(keys[i].fingerprint)];
        if s.deletion.Err? then Exec(s.deletion, deleted)
        else Exec(Ok, deleted + [Say(Removed(keys[i].preview))])
  }

  /** A failed listing is returned at once; otherwise every listed key is shown, numbered
      from 1 in listing order, and then one pick is offered over exactly that many keys. */
  lemma RemoveKeyShowsMenu(s: Script)
    requires RemoveAnswersOk(s)
    ensures s.listing.Failure? ==> RemoveKeySpec(s) == Exec(Err(s.listing.error), [ListKeys])
    ensures var x := RemoveKeySpec(s);
      s.listing.Success? ==>
        var n := |s.listing.value|;
        |x.calls| >= n + 2 && x.calls[n + 1] == Pick("key", n) &&
        forall i :: 0 <= i < n ==> x.calls[i + 1] == Say(MenuRow(i + 1, s.listing.value[i]))
  {
    if s.listing.Success? {
      var keys := s.listing.value;
      var menu := Menu(keys);
      var shown := [ListKeys] + menu + [Pick("key", |keys|)];
      var calls := RemoveKeySpec(s).calls;
      RemoveKeyStartsWithMenu(s);
      forall i | 0 <= i < |keys|
        ensures calls[i + 1] == Say(MenuRow(i + 1, keys[i]))
      {
        assert calls[i + 1] == shown[i + 1];
        assert shown[i + 1] == menu[i];
      }
      assert calls[|keys| + 1] == shown[|keys| + 1];
    }
  }

  /** After a successful listing remove-key's calls begin with the listing, the menu and
      the pick. */
  lemma RemoveKeyStartsWithMenu(s: Script)
    requires RemoveAnswersOk(s) && s.listing.Success?
    ensures var shown := [ListKeys] + Menu(s.listing.value) + [Pick("key", |s.listing.value|)];
      var calls := RemoveKeySpec(s).calls;
      |shown| <= |calls| && calls[..|shown|] == shown
  {
    var keys := s.listing.value;
    var shown := [ListKeys] + Menu(keys) + [Pick("key", |keys|)];
    match s.removeChoice
    case Refused(_) =>
      assert RemoveKeySpec(s).calls == shown;
    case Chosen(i) =>
      var tail := [DeleteKey(keys[i].fingerprint)] +
        if s.deletion.Err? then [] else [Say(Removed(keys[i].preview))];
      assert RemoveKeySpec(s).calls == shown + tail;
      assert (shown + tail)[..|shown|] == shown;
  }

  /** Nothing is deleted after a failed listing or a failed pick, and the pick's error is
      returned. */
  lemma RemoveKeyStopsOnError(s: Script)
    requires RemoveAnswersOk(s)
    ensures var x := RemoveKeySpec(s);
      s.listing.Failure? || s.removeChoice.Refused? ==> forall c :: c in x.calls ==> !c.DeleteKey?
    ensures var x := RemoveKeySpec(s);
      s.listing.Success? && s.removeChoice.Refused? ==> x.result == Err(s.removeChoice.error)
  {
  }

  /** The menu and the pick neither delete nor announce a removal. */
  lemma ShownHasNoDelete(keys: seq<RemoteKey>)
    ensures var shown := [ListKeys] + Menu(keys) + [Pick("key", |keys|)];
      forall c :: c in shown ==> !c.DeleteKey? && !(c.Say? && c.line.Removed?)
  {
  }

  /** Proof step: remove-key's result after a successful pick, with its two result cases
      merged into one call sequence. */
  lemma RemoveKeyCalls(s: Script)
    requires RemoveAnswersOk(s)
    requires s.listing.Success? && s.removeChoice.Chosen?
    ensures var keys := s.listing.value;
      var key := keys[s.removeChoice.index];
      RemoveKeySpec(s) ==
        Exec(s.deletion,
             ([ListKeys] + Menu(keys) + [Pick("key", |keys|)]) +
             ([DeleteKey(key.fingerprint)] + if s.deletion.Err? then [] else [Say(Removed(key.preview))]))
  {
  }

  /** After a successful pick exactly one delete is made, of the chosen key's fingerprint,
      and its error is returned unchanged. */
  lemma RemoveKeyDeletesChosen(s: Script)
    requires RemoveAnswersOk(s)
    requires s.listing.Success? && s.removeChoice.Chosen?
    ensures var x := RemoveKeySpec(s);
      var key := s.listing.value[s.removeChoice.index];
      x.result == s.deletion &&
      (forall c :: c in x.calls && c.DeleteKey? ==> c.fingerprint == key.fingerprint) &&
      Count(x.calls, DeleteKey(key.fingerprint)) == 1
  {
    var keys := s.listing.value;
    var shown := [ListKeys] + Menu(keys) + [Pick("key", |keys|)];
    var key := keys[s.removeChoice.index];
    var d := DeleteKey(key.fingerprint);
    var tail := if s.deletion.Err? then [] else [Say(Removed(key.preview))];
    RemoveKeyCalls(s);
    ShownHasNoDelete(keys);
    CountConcat(shown, [d] + tail, d);
    CountConcat([d], tail, d);
  }

  /** After a successful pick the key is announced as removed exactly when the delete
      succeeded. */
  lemma RemoveKeyAnnounces(s: Script)
    requires RemoveAnswersOk(s)
    requires s.listing.Success? && s.removeChoice.Chosen?
    ensures var key := s.listing.value[s.removeChoice.index];
      Say(Removed(key.preview)) in RemoveKeySpec(s).calls <==> s.deletion.Ok?
  {
    RemoveKeyCalls(s);
    ShownHasNoDelete(s.listing.value);
  }

  /** The environment of one key command: the scripted collaborators, whether a key pair
      has been created yet, and the trace of collaborator calls made so far. */
  class KeyCommands {
    const script: Script
    var created: bool
    ghost var calls: seq<Call>

    constructor (script: Script)
      ensures this.script == script && !created && calls == []
    {
      this.script := script;
      created := false;
      calls := [];
    }

    /** `client.ListKeys()`. */
    method ListKeys() returns (r: Result<seq<RemoteKey>>)
      modifies this`calls
      ensures r == script.listing && calls == old(calls) + [Call.ListKeys]
    {
      r := script.listing;
      calls := calls + [Call.ListKeys];
    }

    /** `sshReadPubKey(path)`. */
    method ReadPubKey(path: string) returns (r: Result<PubKey>)
      modifies this`calls
      ensures r == script.readKey && calls == old(calls) + [Call.ReadPubKey(path)]
    {
      r := script.readKey;
      calls := calls + [Call.ReadPubKey(path)];
    }

    /** `getSSHKeys(existing)`: the local keys, which change once a key pair is created. */
    method GetSSHKeys(existing: map<string, bool>) returns (keys: seq<PubKey>)
      modifies this`calls
      ensures keys == (if created then script.secondScan else script.firstScan)
      ensures calls == old(calls) + [Call.GetSSHKeys(existing)]
    {
      keys := if created then script.secondScan else script.firstScan;
      calls := calls + [Call.GetSSHKeys(existing)];
    }

    /** `shouldContinue("No SSH keys to add. Create a new key?")`. */
    method ShouldContinue() returns (yes: bool)
      modifies this`calls
      ensures yes == script.confirmCreate && calls == old(calls) + [Call.ShouldContinue]
    {
      yes := script.confirmCreate;
      calls := calls + [Call.ShouldContinue];
    }

    /** `createSSHKey()`. */
    method CreateSSHKey()
      modifies this`calls, this`created
      ensures created && calls == old(calls) + [Call.CreateSSHKey]
    {
      created := true;
      calls := calls + [Call.CreateSSHKey];
    }

    /** `pickSSHKey(keys, os.Stdout)`: one of the offered keys, or the picker's error. */
    method PickSSHKey(keys: seq<PubKey>) returns (r: Result<PubKey>)
      requires script.keyChoice.Chosen? ==> script.keyChoice.index < |keys|
      modifies this`calls
      ensures r == match script.keyChoice
        case Chosen(i) => Success(keys[i])
        case Refused(e) => Failure(e)
      ensures calls == old(calls) + [Call.PickSSHKey(keys)]
    {
      r := match script.keyChoice
        case Chosen(i) => Success(keys[i])
        case Refused(e) => Failure(e);
      calls := calls + [Call.PickSSHKey(keys)];
    }

    /** `getText("Name this key [optional]")`. */
    method GetText() returns (answer: string)
      modifies this`calls
      ensures answer == script.nameAnswer && calls == old(calls) + [Call.GetText]
    {
      answer := script.nameAnswer;
      calls := calls + [Call.GetText];
    }

    /** `time.Now()`. */
    method Today() returns (d: Text.Date)
      modifies this`calls
      ensures d == script.today && calls == old(calls) + [Call.Now]
    {
      d := script.today;
      calls := calls + [Call.Now];
    }

    /** `client.UploadKey(name, text)`. */
    method UploadKey(name: string, text: string) returns (o: Outcome)
      modifies this`calls
      ensures o == script.upload && calls == old(calls) + [Call.UploadKey(name, text)]
    {
      o := script.upload;
      calls := calls + [Call.UploadKey(name, text)];
    }

    /** `pick(noun, count)`: a position below `count`, or the prompt's error. */
    method Pick(noun: string, count: nat) returns (r: Result<nat>)
      requires script.removeChoice.Chosen? ==> script.removeChoice.index < count
      modifies this`calls
      ensures r == match script.removeChoice
        case Chosen(i) => Success(i)
        case Refused(e) => Failure(e)
      ensures r.Success? ==> r.value < count
      ensures calls == old(calls) + [Call.Pick(noun, count)]
    {
      r := match script.removeChoice
        case Chosen(i) => Success(i)
        case Refused(e) => Failure(e);
      calls := calls + [Call.Pick(noun, count)];
    }

    /** `client.DeleteKey(fingerprint)`. */
    method DeleteKey(fingerprint: string) returns (o: Outcome)
      modifies this`calls
      ensures o == script.deletion && calls == old(calls) + [Call.DeleteKey(fingerprint)]
    {
      o := script.deletion;
      calls := calls + [Call.DeleteKey(fingerprint)];
    }

    method Println(line: Line)
      modifies this`calls
      ensures calls == old(calls) + [Say(line)]
    {
      calls := calls + [Say(line)];
    }

    /** The local keys add-key offers when no key path is given: a scan, and when it finds
        nothing and the user agrees, a new key pair and a second scan. */
    method ScanLocalKeys(existing: map<string, bool>) returns (keys: seq<PubKey>)
      requires !created && existing == Registered(script.listing)
      modifies this`calls, this`created
      ensures keys == Candidates(script) && calls == old(calls) + Scan(script)
      ensures created <==> script.firstScan == [] && script.confirmCreate
    {
      keys := GetSSHKeys(existing);
      if |keys| == 0 {
        var yes := ShouldContinue();
        if yes {
          CreateSSHKey();
          keys := GetSSHKeys(existing);
        }
      }
    }

    /** The end of add-key once it has a key: name it (today's date when the answer is
        blank), upload it trimmed, and announce it when the upload succeeds. */
    method NameAndUpload(key: PubKey) returns (err: Outcome)
      requires script.nameAnswer == "" ==> Text.ValidDate(script.today)
      modifies this`calls
      ensures err == script.upload && calls == old(calls) + Upload(script, KeyName(script), key)
    {
      ghost var asked := Naming(script);
      var name := GetText();
      if name == "" {
        var today := Today();
        name := Text.FormatDate(today);
      }
      assert name == KeyName(script) && calls == old(calls) + asked;
      ghost var uploaded := [Call.UploadKey(name, Text.TrimSpace(key.authorized))];
      err := UploadKey(name, Text.TrimSpace(key.authorized));
      Associative(old(calls), asked, uploaded);
      if err.Err? {
        assert uploaded + [] == uploaded;
        return;
      }
      Println(Added(name));
      Associative(old(calls), asked, uploaded + [Call.Say(Added(name))]);
      Associative(old(calls) + asked, uploaded, [Call.Say(Added(name))]);
      err := Ok;
    }

    /** The first lines of add-key: the registered fingerprints, or none when the listing
        fails, in which case add-key carries on regardless. */
    method ExistingFingerprints() returns (existing: map<string, bool>)
      modifies this`calls
      ensures existing == Registered(script.listing)
      ensures calls == old(calls) + [Call.ListKeys]
    {
      existing := map[];
      var listing := ListKeys();
      if listing.Success? {
        existing := CollectFingerprints(listing.value);
      }
    }

    /** The `run` body of add-key. */
    method RunAddKey() returns (err: Outcome)
      requires !created && AddKeyAnswersOk(script)
      modifies this`calls, this`created
      ensures err == AddKeySpec(script).result
      ensures calls == old(calls) + AddKeySpec(script).calls
      ensures created <==> script.keyPath == "" && script.firstScan == [] && script.confirmCreate
    {
      var existing := ExistingFingerprints();
      ghost var listed := calls;

      var chosen: Result<PubKey>;
      if script.keyPath != "" {
        chosen := ReadPubKey(script.keyPath);
      } else {
        var keys := ScanLocalKeys(existing);
        if |keys| == 0 {
          Associative(old(calls), [Call.ListKeys], Lookup(script));
          assert After(script) == [];
          return Err(Plain(NoKeysMessage));
        }
        chosen := PickSSHKey(keys);
        Associative(listed, Scan(script), [Call.PickSSHKey(keys)]);
      }
      assert calls == listed + Lookup(script);
      Associative(old(calls), [Call.ListKeys], Lookup(script));

      if chosen.Failure? {
        assert After(script) == [];
        return Err(Refusal(chosen.error));
      }
      assert Select(script) == Key(chosen.value);
      assert After(script) == Upload(script, KeyName(script), chosen.value);
      err := NameAndUpload(chosen.value);
      Associative(old(calls), [Call.ListKeys] + Lookup(script), After(script));
    }

    /** The `run` body of list-keys. */
    method RunListKeys() returns (err: Outcome)
      modifies this`calls
      ensures err == ListKeysSpec(script).result
      ensures calls == old(calls) + ListKeysSpec(script).calls
    {
      var resp := ListKeys();
      if resp.Failure? {
        return Err(resp.error);
      }
      var keys := resp.value;
      ghost var listed := calls;
      var i := 0;
      while i < |keys|
        invariant 0 <= i <= |keys|
        invariant calls == listed + Rows(keys)[..i]
      {
        assert Rows(keys)[..i + 1] == Rows(keys)[..i] + [Say(KeyRow(keys[i]))];
        Println(KeyRow(keys[i]));
        i := i + 1;
      }
      assert Rows(keys)[..i] == Rows(keys);
      Associative(old(calls), [Call.ListKeys], Rows(keys));
      err := Ok;
    }

    /** The `run` body of remove-key. */
    method RunRemoveKey() returns (err: Outcome)
      requires RemoveAnswersOk(script)
      modifies this`calls
      ensures err == RemoveKeySpec(script).result
      ensures calls == old(calls) + RemoveKeySpec(script).calls
    {
      var resp := ListKeys();
      if resp.Failure? {
        return Err(resp.error);
      }
      var keys := resp.value;
      ghost var listed := calls;
      var i := 0;
      while i < |keys|
        invariant 0 <= i <= |keys|
        invariant calls == listed + Menu(keys)[..i]
      {
        assert Menu(keys)[..i + 1] == Menu(keys)[..i] + [Say(MenuRow(i + 1, keys[i]))];
        Println(MenuRow(i + 1, keys[i]));
        i := i + 1;
      }
      assert Menu(keys)[..i] == Menu(keys);
      var choice := Pick("key", |keys|);
      ghost var shown := [Call.ListKeys] + Menu(keys) + [Call.Pick("key", |keys|)];
      assert calls == old(calls) + shown;
      if choice.Failure? {
        return Err(choice.error);
      }
      var chosenKey := keys[choice.value];
      err := DeleteKey(chosenKey.fingerprint);
      if err.Err? {
        return;
      }
      Println(Removed(chosenKey.preview));
      err := Ok;
    }
  }
}

=== FILE: outcomes.dfy ===
/** The error values the client passes around, reduced to what its code inspects:
    the dynamic type of an `error`, the HTTP status of an API error, and its message. */
module Outcomes {

  /** What a `*url.Error` wraps: the OAuth library's `OAuthError`, or anything else. */
  datatype Cause = OAuthError | OtherCause

  /** A non-nil Go `error`. `text` is what its `Error()` method returns. */
  datatype Error =
    | UrlError(cause: Cause, text: string)   // *url.Error from the HTTP transport
    | ApiError(code: int, text: string)      // *api.APIError carrying an HTTP status
    | Plain(text: string)                    // any other error, e.g. one built by fmt.Errorf

  /** The `error` result of a Go function: nil or an error. */
  datatype Outcome = Ok | Err(error: Error)

  /** A Go `(T, error)` pair where exactly one side matters. */
  datatype Result<T> = Success(value: T) | Failure(error: Error)

  datatype Option<T> = None | Some(value: T)
}

=== FILE: text.dfy ===
/** The two pieces of Go library text handling the key commands depend on:
    `strings.TrimSpace` and `time.Time.Format` with the layout "2006-01-02". */
module Text {

  /** Go's `unicode.IsSpace`: the Latin-1 spaces, then the Unicode White_Space property. */
  predicate IsSpace(c: char)
  {
    var n := c as int;
    if n <= 0xFF then
      n == 0x09 || n == 0x0A || n == 0x0B || n == 0x0C || n == 0x0D ||
      n == 0x20 || n == 0x85 || n == 0xA0
    else
      n == 0x1680 || (0x2000 <= n <= 0x200A) || n == 0x2028 || n == 0x2029 ||
      n == 0x202F || n == 0x205F || n == 0x3000
  }

  ghost predicate AllSpace(s: string)
  {
    forall i :: 0 <= i < |s| ==> IsSpace(s[i])
  }

  /** The number of white-space characters at the start of `s`. */
  function LeadingSpaces(s: string): (n: nat)
    ensures n <= |s| && AllSpace(s[..n])
    ensures n < |s| ==> !IsSpace(s[n])
  {
    if s == [] || !IsSpace(s[0]) then 0
    else
      var m := LeadingSpaces(s[1..]);
      assert s[..m + 1] == [s[0]] + s[1..][..m];
      m + 1
  }

  /** The number of white-space characters at the end of `s`. */
  function TrailingSpaces(s: string): (n: nat)
    ensures n <= |s| && AllSpace(s[|s| - n..])
    ensures n < |s| ==> !IsSpace(s[|s| - n - 1])
  {
    if s == [] || !IsSpace(s[|s| - 1]) then 0
    else
      var init := s[..|s| - 1];
      var m := TrailingSpaces(init);
      assert s[|s| - (m + 1)..] == init[|init| - m..] + [s[|s| - 1]];
      m + 1
  }

  /** `strings.TrimSpace`: `s` with its leading and trailing white space cut off.
      The result is the slice of `s` that starts after the leading white space,
      everything after it is white space, and it neither starts nor ends with white space. */
  function TrimSpace(s: string): (r: string)
    ensures LeadingSpaces(s) + |r| <= |s|
    ensures r == s[LeadingSpaces(s)..LeadingSpaces(s) + |r|]
    ensures AllSpace(s[LeadingSpaces(s) + |r|..])
    ensures r == [] || (!IsSpace(r[0]) && !IsSpace(r[|r| - 1]))
    ensures r == [] <==> AllSpace(s)
  {
    var lead := LeadingSpaces(s);
    if lead == |s| then
      assert s[..lead] == s;
      []
    else
      var trail := TrailingSpaces(s);
      assert !AllSpace(s) by { assert !IsSpace(s[lead]); }
      s[lead..|s| - trail]
  }

  /** A calendar date as `time.Now()` reports it. */
  datatype Date = Date(year: int, month: int, day: int)

  /** The dates whose year the layout "2006" prints in exactly four digits. */
  predicate ValidDate(d: Date)
  {
    0 <= d.year <= 9999 && 1 <= d.month <= 12 && 1 <= d.day <= 31
  }

  function Pow10(n: nat): (p: nat)
    ensures p >= 1
  {
    if n == 0 then 1 else 10 * Pow10(n - 1)
  }

  predicate IsDigit(c: char)
  {
    '0' <= c <= '9'
  }

  predicate AllDigits(s: string)
  {
    forall i :: 0 <= i < |s| ==> IsDigit(s[i])
  }

  /** The number a string of decimal digits denotes. */
  function DecimalValue(s: string): nat
    requires AllDigits(s)
  {
    if s == [] then 0
    else 10 * DecimalValue(s[..|s| - 1]) + (s[|s| - 1] as int - '0' as int)
  }

  /** Go's `appendInt(b, n, width)`: `n` in decimal, zero-padded to `width` digits. */
  function Pad(n: nat, width: nat): (r: string)
    requires n < Pow10(width)
    ensures |r| == width && AllDigits(r)
    ensures DecimalValue(r) == n
  {
    if width == 0 then []
    else
      var high := Pad(n / 10, width - 1);
      var r := high + [('0' as int + n % 10) as char];
      assert r[..|r| - 1] == high;
      r
  }

  /** `t.Format("2006-01-02")`: four-digit year, two-digit month and day, dash-separated. */
  function FormatDate(d: Date): (r: string)
    requires ValidDate(d)
    ensures |r| == 10 && r[4] == '-' && r[7] == '-'
    ensures AllDigits(r[..4]) && AllDigits(r[5..7]) && AllDigits(r[8..])
    ensures DecimalValue(r[..4]) == d.year
    ensures DecimalValue(r[5..7]) == d.month
    ensures DecimalValue(r[8..]) == d.day
  {
    var y, m, dd := Pad(d.year, 4), Pad(d.month, 2), Pad(d.day, 2);
    var r := y + "-" + m + "-" + dd;
    assert r[..4] == y && r[5..7] == m && r[8..] == dd;
    r
  }
}

=== FILE: traces.dfy ===
/** Counting entries of a call trace. */
module Traces {

  /** How many times `x` occurs in `s`. */
  function Count<T(==)>(s: seq<T>, x: T): (n: nat)
    ensures n <= |s|
    ensures n == 0 <==> x !in s
  {
    if s == [] then 0
    else Count(s[..|s| - 1], x) + (if s[|s| - 1] == x then 1 else 0)
  }

  /** Counting distributes over concatenation of traces. */
  lemma {:induction false} CountConcat<T>(a: seq<T>, b: seq<T>, x: T)
    ensures Count(a + b, x) == Count(a, x) + Count(b, x)
  {
    if b == [] {
      assert a + b == a;
    } else {
      var b' := b[..|b| - 1];
      assert (a + b)[..|a + b| - 1] == a + b';
      CountConcat(a, b', x);
    }
  }

  /** Entries absent from the parts around `middle` are counted in `middle` alone. */
  lemma CountBetween<T>(before: seq<T>, middle: seq<T>, after: seq<T>, x: T)
    requires x !in before && x !in after
    ensures Count(before + middle + after, x) == Count(middle, x)
  {
    CountConcat(before, middle, x);
    CountConcat(before + middle, after, x);
  }

  /** Appending to a trace in two steps is appending once; stated so that provers
      do not have to rediscover it on long traces. */
  lemma Associative<T>(a: seq<T>, b: seq<T>, c: seq<T>)
    ensures a + b + c == a + (b + c)
  {
  }
}
